=== FILE: README.md ===
# Bus tracker core, modelled in Dafny

The bus-tracking system simulates a fleet of city buses, streams their GPS
readings through Kafka to a processor that keeps the latest positions, a geo
set and a density heat map in Redis, and shows the live fleet on a Leaflet
dashboard. This project models its core:

- **Motion** (`motion.dfy`): the simulated `Bus` of
  `backend/src/simulator/Simulator.ts`: the speed re-roll and smoothing, the
  walk loop that carries a bus along its polyline and back, the passenger
  changes at virtual stops and at the route ends, and the interpolated
  location it reports. Distances are measured by an arbitrary metric `len`
  (the source uses the haversine formula); every `Math.random()` call is the
  next element of a draw stream; `Date.now()` is a parameter. Positions are
  measured by an arc-length coordinate on the out-and-back circuit, so "the
  bus moved exactly the distance it was given" becomes a statement about
  that coordinate modulo whole laps.
- **Fleet** (`fleet.dfy`): the `Simulator` constructor: ten buses per route,
  their ids `bus-<first four characters of the route id>-<slot>`, and their
  staggered starting state.
- **Processor** (`processor.dfy`): the Kafka `eachMessage` handler of
  `backend/src/processor/consumer.ts` as a pure transition over the Redis
  state it writes (latest location, geo set, heat-map counters with their
  300 s time-to-live) and the list of published events, with a possible
  failure of any Redis command.
- **LiveView** (`live_view.dfy`): the dashboard state in
  `frontend/src/App.tsx`: the `busUpdate` upsert into an insertion-ordered
  map, the case-insensitive search filter, and the `[lon, lat]` to
  `[lat, lon]` swap for drawing routes.
- Helpers: `Wrappers` (`Option`), `SharedTypes` (`BusLocation`), `Text`
  (ASCII lower-casing, substring search, digits), `RealArith` (small facts
  about real products and quotients), `RouteGeometry` (points, metrics,
  cumulative leg lengths).

Two consequences of the code worth knowing:

- The heat-map cell is a floor to 0.001 degree (consumer.ts:25-26; the
  comment on line 24 speaks of rounding), so nearness does not imply the same
  cell: two readings 0.0009 degree apart can fall in different cells
  (`Processor.QuantiseExamples`).
- The segment index ranges over every vertex `0..n-1`: a bus returning
  along its route stands at index `n-1` right after turning round.

## Model

| member | source | states |
|---|---|---|
| Motion.NextVertexExists | backend/src/simulator/Simulator.ts:70-78 | On its route a bus always has a vertex to head for, distinct from the one it is at, so the `!nextPoint` branch never runs. |
| Motion.PassengerDelta | backend/src/simulator/Simulator.ts:106 | A draw in [0, 1) changes the count by an integer in [-5, 5]. |
| Motion.PassengerDeltaCovers | backend/src/simulator/Simulator.ts:106 | Every change in [-5, 5] is produced by some draw. |
| Motion.ChangePassengers | backend/src/simulator/Simulator.ts:104-108 | The new count lies in [0, 60]; it is the old count plus the change when that stays in range, 0 or 60 when it would leave it, and moves by at most five. |
| Motion.PassengersStayInRange | backend/src/simulator/Simulator.ts:104-108 | After any number of changes a count that started in [0, 60] is still there and has moved by at most five per change. |
| Motion.RerollCovers | backend/src/simulator/Simulator.ts:59-60 | Every target in [20, 60) is reached by a re-roll whose second draw is (t - 20) / 40. |
| Motion.AdjustSpeed | backend/src/simulator/Simulator.ts:58-63 | The target is kept unless the first draw is below 0.05, and is then re-rolled to 20 + 40 times the second draw, in [20, 60); the speed closes a tenth of its gap to the target, moves monotonically toward it, and stays in [20, 60). |
| Motion.SegmentLength | backend/src/simulator/Simulator.ts:80 | The length of the current segment in the direction of travel, positive on a route without zero-length segments. |
| Motion.LeftInSegmentPositive | backend/src/simulator/Simulator.ts:81 | The distance left before the next vertex is positive and equals the whole segment when progress is 0. |
| Motion.ArcOnCircuit | backend/src/simulator/Simulator.ts:69-101 | A bus on its route has a position in [0, circuit length) on the out-and-back circuit. |
| Motion.Advance | backend/src/simulator/Simulator.ts:83-85 | A budget that ends inside the segment raises progress, keeps it below 1, changes nothing else, and moves the bus by exactly the budget. |
| Motion.StopPassengers | backend/src/simulator/Simulator.ts:92-94 | A first draw of at least 0.2 leaves the count alone; a lower one fires the stop, which applies the passenger change with the next draw, so the count moves by at most five and stays in [0, 60]. Its place in the crossing is stated by Motion.Arrive. |
| Motion.StopCursor | backend/src/simulator/Simulator.ts:92-94 | The stop consumes one draw, and a second one exactly when it fires (first draw below 0.2). |
| Motion.Arrive | backend/src/simulator/Simulator.ts:86-99 | Reaching a vertex resets progress to 0, moves the index one vertex along, flips the direction exactly at an end, applies the stop and end passenger changes in draw order, and moves the bus by exactly the distance that was left in the segment (one lap back when it turns at vertex 0). |
| Motion.Step | backend/src/simulator/Simulator.ts:69-101 | One loop iteration keeps the bus valid and on its journey, strictly consumes budget, and moves the bus by exactly the consumed distance modulo a lap; a short budget ends in the segment, a sufficient one lands on the next vertex. |
| Motion.StepShrinks | backend/src/simulator/Simulator.ts:69-101 | No step grows the number of whole shortest segments left in the budget, and a crossing that starts at a vertex lowers it: the loop ends. |
| Motion.Travel | backend/src/simulator/Simulator.ts:69-101 | The loop ends, keeps the bus valid, leaves a zero budget untouched, and moves the bus round the circuit by exactly the budget minus whole laps. |
| Motion.Walk | backend/src/simulator/Simulator.ts:65-101 | A non-positive budget changes nothing; a positive one moves the bus by exactly the budget modulo whole laps; a budget shorter than the rest of the segment only raises progress; one exactly equal lands on the next vertex with progress 0. |
| Motion.Distance | backend/src/simulator/Simulator.ts:55-65 | At a positive speed the distance is positive exactly when time has passed. |
| Motion.DistanceUnits | backend/src/simulator/Simulator.ts:55-65 | Speed is in km/h and time in ms: 36 km/h for 1000 ms covers 0.01 km, and one hour at v km/h covers v km. |
| Motion.DistanceAdditive | backend/src/simulator/Simulator.ts:55-65 | The distance of two consecutive intervals is the sum of their distances. |
| Motion.Move | backend/src/simulator/Simulator.ts:53-102 | A tick keeps the bus valid and on its route, stamps the clock, consumes draws, smooths the speed, leaves the position alone when no time has passed, and otherwise moves the bus by the distance its new speed covers in the elapsed time, modulo whole laps. |
| Motion.Heading | backend/src/simulator/Simulator.ts:112-113 | On its route the interpolation target is the next vertex, never the fallback. |
| Motion.CurrentLocation | backend/src/simulator/Simulator.ts:110-128 | The reported longitude and latitude are the weighted mean (1 - progress)·p1 + progress·p2 of the current vertex p1 and the vertex headed for p2; the location is p1 at progress 0, lies in the box spanned by p1 and p2, copies id, route, speed and passengers, and is stamped with the clock. |
| Fleet.BusId | backend/src/simulator/Simulator.ts:139 | The id starts with `bus-`, is six characters longer than the route prefix and ends with the slot digit; Fleet.BusIdInjective characterises when two ids are equal. |
| Fleet.Spawn | backend/src/simulator/Simulator.ts:40-51 | A new bus carries its template id, route and path, heads forward with target equal to speed and the clock as last update, with speed 30 + 20 times the first draw, in [30, 50), passengers the floor of 30 times the second, start segment the floor of (n - 1) times the third and progress equal to the fourth, in [0, 1); Fleet.SpawnIsFresh adds the full start invariant including the staggered segment of lines 141-142. |
| Fleet.IdPrefix | backend/src/simulator/Simulator.ts:139 | The prefix is the first four characters of the route id, or the whole id when it is shorter. |
| Fleet.BusIdInjective | backend/src/simulator/Simulator.ts:139 | Two bus ids are equal exactly when their route prefixes and slots are equal. |
| Fleet.BusIdsCollideAcrossRoutes | backend/src/simulator/Simulator.ts:139 | Routes whose ids share four leading characters produce the same bus ids. |
| Fleet.ExampleBusId | backend/src/simulator/Simulator.ts:139 | Slot 3 of route "0001" is `bus-0001-3`. |
| Fleet.StaggerCovers | backend/src/simulator/Simulator.ts:141-142 | Every start segment in [0, n-2] and every progress in [0, 1) is placed by an admissible draw (s / (n - 1) and the progress itself). |
| Fleet.StartCovers | backend/src/simulator/Simulator.ts:46-48 | Every start speed in [30, 50) and every start load in 0..29 is produced by an admissible draw. |
| Fleet.SpawnIsFresh | backend/src/simulator/Simulator.ts:40-51 | A new bus on a route with two or more vertices is valid, goes forward from a segment in [0, n-2], has speed in [30, 50) equal to its target, 0 to 29 passengers and the clock as last update. |
| Fleet.CreateFleet | backend/src/simulator/Simulator.ts:134-146 | Ten buses per route, route by route in slot order, four draws each; each bus has its route's id and slot, and starts fresh when its route has two or more vertices. |
| Fleet.SpawnedFleetIsFresh | backend/src/simulator/Simulator.ts:134-145 | Every bus of the fleet carries its route's template id, and starts fresh when its route has two or more vertices. |
| Fleet.FleetIdsUnique | backend/src/simulator/Simulator.ts:136-144 | All fleet ids differ when no two routes share an id prefix. |
| Fleet.MidpointOfFirstSegment | backend/src/simulator/index.ts:6-20 | Halfway along the first segment of route "1" the reported position is the midpoint of its first two vertices. |
| Processor.Quantise | backend/src/processor/consumer.ts:25-26 | The grid index is the 0.001-degree cell containing the coordinate. |
| Processor.QuantiseUnique | backend/src/processor/consumer.ts:25-26 | That cell is unique. |
| Processor.SameCellIsNear | backend/src/processor/consumer.ts:23-27 | Two coordinates in one cell are less than 0.001 degree apart. |
| Processor.QuantiseExamples | backend/src/processor/consumer.ts:25-27 | Concrete cells: 0.0009 degree away can be the next cell, and 0.0009 degree below can be the same cell. |
| Processor.CellOf | backend/src/processor/consumer.ts:25-27 | The grid key of a reading is the 0.001-degree cell containing its latitude and its longitude. |
| Processor.SetLatest | backend/src/processor/consumer.ts:18 | The bus's latest record is replaced or added; other buses and stores are unchanged. |
| Processor.GeoAdd | backend/src/processor/consumer.ts:21 | The bus's geo entry is replaced or added with its longitude and latitude; everything else is unchanged. |
| Processor.Incr | backend/src/processor/consumer.ts:30 | The cell's visible count rises by one; an absent or expired cell (one whose expiry time has passed) restarts at 1 without expiry, a live one keeps its expiry; other cells and stores are unchanged. |
| Processor.Expire | backend/src/processor/consumer.ts:31 | A live cell expires 300 s from now and reads its count up to and including that instant and 0 after it; an absent or expired cell is left alone; the other stores are unchanged. |
| Processor.Publish | backend/src/processor/consumer.ts:34 | The event is appended to the published list; the stores are unchanged. |
| Processor.Handle | backend/src/processor/consumer.ts:10-40 | A message without a value or with an unparsable value changes nothing; otherwise the commands run in order up to the first failure, which is the outcome; each completed command has its effect and the rest have none; when INCR completes but EXPIRE fails the cell keeps the expiry it had if it was live and has none otherwise; every other existing cell is unchanged and no cell other than the message's own is created. |
| Processor.RedeliveryDoubleCounts | backend/src/processor/consumer.ts:10-40 | Delivering a message twice within 300 s (inclusive) leaves the latest and geo stores as one delivery does, but counts the cell twice and publishes twice. |
| Processor.UnbumpedCellUnchanged | backend/src/processor/consumer.ts:29-31 | A cell no later delivery increments keeps its count and expiry, and an absent one stays absent. |
| Processor.CellDecays | backend/src/processor/consumer.ts:29-31 | A cell incremented at t0 and not again reads 0 at every time after t0 + 300 s (Redis keeps a key through the millisecond it expires). |
| Processor.FailedExpireNeverDecays | backend/src/processor/consumer.ts:30-31 | When EXPIRE fails after INCR created the cell, the cell reads 1 forever. |
| Processor.PublishedIsStored | backend/src/processor/consumer.ts:17-34 | A published event is the stored latest record of its bus, and its position is the bus's geo entry. |
| LiveView.IndexOf | frontend/src/App.tsx:167 | The first position holding the key, or -1 exactly when the key is absent. |
| LiveView.Get | frontend/src/App.tsx:167 | A lookup finds a value exactly when the key is present, and it is that key's entry. |
| LiveView.Put | frontend/src/App.tsx:166-167 | After the set the key maps to the new value, every other key reads as before, the key set gains the key, the size grows by one only for a new key, existing keys keep their order, and keys stay unique. |
| LiveView.AppendIndex | frontend/src/App.tsx:167 | Appending an entry makes its key findable at the end only when no earlier entry has it. |
| LiveView.OnBusUpdate | frontend/src/App.tsx:161-170 | The reporting bus's entry becomes the update; every other bus reads as before; the map grows by at most one, and not at all for a known bus. |
| LiveView.Values | frontend/src/App.tsx:43 | The list holds the map's values in insertion order. |
| LiveView.Matches | frontend/src/App.tsx:46-47 | Every bus matches the empty query and a query equal to its own id or route id up to case; LiveView.KeepMatching and LiveView.KeepMatchingCounts state how the filter uses it. |
| LiveView.KeepMatching | frontend/src/App.tsx:45-48 | Every bus kept matches the query, and the result keeps list order. |
| LiveView.KeepMatchingCounts | frontend/src/App.tsx:45-48 | Each bus occurs in the result as often as in the list when it matches, and not at all otherwise. |
| LiveView.FilteredBuses | frontend/src/App.tsx:42-49 | An empty query lists every bus; otherwise the result holds only matching buses, every matching bus, in map order. |
| LiveView.EmptyQueryMatchesAll | frontend/src/App.tsx:44-48 | Every bus matches the empty query, so the early return agrees with the filter. |
| LiveView.FilterIgnoresQueryCase | frontend/src/App.tsx:46-47 | Queries equal up to case give the same result. |
| LiveView.ToLatLngs | frontend/src/App.tsx:126 | Each pair is swapped and the count and order of vertices are kept. |
| LiveView.SwapTwiceIsIdentity | frontend/src/App.tsx:126 | Swapping twice gives back the original vertices. |
| Text.Lower | frontend/src/App.tsx:46-47 | Lower-casing keeps the length and lower-cases each character. |
| Text.LowerIdempotent | frontend/src/App.tsx:46-47 | Lower-casing twice is lower-casing once. |

## Left out

- The haversine distance (Simulator.ts:15-25) is a parameter `len`, any function of two points; the walk assumes it is positive between every pair of consecutive vertices, in both directions (`RouteGeometry.Walkable`), which excludes any route that repeats a vertex consecutively.
- IEEE floating point: the model computes in exact reals, so rounding in the progress update and in the grid floor is not modelled.
- `Math.random()` and `Date.now()` are parameters: a draw stream with values in [0, 1) and a clock in milliseconds.
- Motion.Walk: requires a route of at least two vertices whose consecutive vertices are all a positive distance apart. On a route with one vertex the source's loop takes the `!nextPoint` branch forever, and on a route whose segments all have length 0 it never consumes budget, so neither terminates in the source. A route where only some segments have length 0 does terminate in the source (such a segment is crossed at once, Simulator.ts:81-89); excluding it keeps the termination measure simple and is a limitation of the model, not of the source.
- Motion.Walk: requires the bus to start on its route (index and progress in range); the source's `!nextPoint` branch, reachable only from an off-route state, is not modelled.
- `Simulator.start` (the one-second timer, Kafka sends and logging) is not modelled: it only calls `move` and `getCurrentLocation` on each bus.
- Kafka, Redis and Socket.IO connections and configuration, the Express API, the database entities and the seed scripts are not modelled.
- `JSON.parse` and `JSON.stringify` are a parameter `parse` and the identity: stores hold `BusLocation` values, not their JSON text.
- Processor.Handle: one clock reading serves the whole message, while INCR and EXPIRE are separate awaited calls (consumer.ts:30-31); in the source a live cell whose time-to-live runs out between them loses its count, and EXPIRE then finds no key; the model's EXPIRE always sets the new deadline on a cell INCR just touched.
- Fleet.CreateFleet: every bus gets the same clock reading as its last update; the source reads `Date.now()` in each `Bus` constructor (Simulator.ts:50), so their stamps may differ by the time the loop takes.
- Fleet.IdPrefix: slices the first four characters (Unicode scalar values); JavaScript's `slice(0, 4)` counts UTF-16 code units, so for a route id holding characters outside the Basic Multilingual Plane (an emoji, say) the two prefixes differ.
- Processor.GeoAdd: Redis rejects coordinates outside its geo range and stores positions as 52-bit geohashes; here any failure is one of the generic command faults and positions are stored exactly.
- Processor.Incr: Redis counters are 64-bit and fail on overflow; the model's counters are unbounded.
- Redis expiry is modelled as visibility by absolute time; lazy and active eviction are not distinguished.
- Text.Lower: lower-cases ASCII letters only; JavaScript's `toLowerCase` also maps non-ASCII letters.
- The dashboard's markers, popups, heat layer, stops layer, route toggling and selection (App.tsx outside the lines cited above) are user-interface code and are not modelled.
- The shared `RouteConfig` interface (backend/src/shared/types.ts:11-16) is not used by the core and is not modelled.

=== FILE: fleet.dfy ===
/** Fleet set-up in the `Simulator` constructor
    (backend/src/simulator/Simulator.ts:131-146): ten buses per route, with
    staggered start positions. The periodic `start` loop is not modelled. */
module Fleet {
  import opened Wrappers
  import opened Text
  import opened RouteGeometry
  import opened Motion
  import RealArith

  const BusesPerRoute: int := 10

  /** A route as the simulator receives it (Simulator.ts:4-12); the GeoJSON
      `path.coordinates` list becomes a sequence of points. */
  datatype RouteData = RouteData(id: string, name: string, path: seq<Point>, color: Option<string>)

  /** `route.id.slice(0, 4)`. */
  function IdPrefix(routeId: string): (p: string)
    ensures p <= routeId
    ensures |p| == if |routeId| < 4 then |routeId| else 4
  {
    if |routeId| <= 4 then routeId else routeId[..4]
  }

  /** `bus-${route.id.slice(0, 4)}-${i}` (Simulator.ts:139). */
  function BusId(routeId: string, i: int): (id: string)
    requires 0 <= i < BusesPerRoute
    ensures |id| == |IdPrefix(routeId)| + 6
    ensures "bus-" <= id
    ensures id[|id| - 1] as int - '0' as int == i
  {
    "bus-" + IdPrefix(routeId) + "-" + Digit(i)
  }

  /** Two ids are equal exactly when their route prefixes and slots are. */
  lemma BusIdInjective(a: string, i: int, c: string, j: int)
    requires 0 <= i < BusesPerRoute && 0 <= j < BusesPerRoute
    ensures BusId(a, i) == BusId(c, j) <==> IdPrefix(a) == IdPrefix(c) && i == j
  {
    DigitInjective(i, j);
    if BusId(a, i) == BusId(c, j) {
      var x, y := BusId(a, i), BusId(c, j);
      assert |IdPrefix(a)| == |IdPrefix(c)|;
      var n := |IdPrefix(a)|;
      assert IdPrefix(a) == x[4..4 + n];
      assert IdPrefix(c) == y[4..4 + n];
      assert Digit(i) == x[5 + n..];
      assert Digit(j) == y[5 + n..];
    }
  }

  /** Routes whose ids share their first four characters get the same bus ids:
      "route-1" and "route-2" both yield "bus-rout-0". */
  lemma BusIdsCollideAcrossRoutes()
    ensures BusId("route-1", 0) == BusId("route-2", 0) == "bus-rout-0"
  {
    assert IdPrefix("route-1") == "rout";
    assert IdPrefix("route-2") == "rout";
  }

  /** The example id of the route with id "0001", slot 3. */
  lemma ExampleBusId()
    ensures BusId("0001", 3) == "bus-0001-3"
  {
  }

  /** `new Bus(...)` followed by the staggering of Simulator.ts:141-142. The
      constructor draws speed then passengers (Simulator.ts:46-48); the
      simulator then draws the start segment and the progress. */
  function Spawn(route: RouteData, i: int, rnd: Draws, k: nat, now: int): (b: Bus)
    requires 0 <= i < BusesPerRoute
    ensures b.id == BusId(route.id, i) && b.routeId == route.id && b.path == route.path
    ensures !b.reverse && b.targetSpeed == b.speed && b.lastUpdate == now
    ensures UnitDraws(rnd) ==> 30.0 <= b.speed < 50.0 && 0.0 <= b.progress < 1.0
    ensures (b.speed - 30.0) / 20.0 == rnd(k)
    ensures b.passengers as real <= rnd(k + 1) * 30.0 < (b.passengers + 1) as real
    ensures b.segment as real <= rnd(k + 2) * (|route.path| - 1) as real < (b.segment + 1) as real
    ensures b.progress == rnd(k + 3)
  {
    var speed := 30.0 + rnd(k) * 20.0;
    Bus(
      id := BusId(route.id, i),
      routeId := route.id,
      path := route.path,
      segment := (rnd(k + 2) * (|route.path| - 1) as real).Floor,
      progress := rnd(k + 3),
      speed := speed,
      targetSpeed := speed,
      passengers := (rnd(k + 1) * 30.0).Floor,
      reverse := false,
      lastUpdate := now)
  }

  /** What a freshly placed bus satisfies. */
  predicate Fresh(b: Bus, route: RouteData, i: int, now: int)
    requires 0 <= i < BusesPerRoute
  {
    && Valid(b)
    && b.id == BusId(route.id, i)
    && b.routeId == route.id
    && b.path == route.path
    && 0 <= b.segment <= |route.path| - 2
    && !b.reverse
    && 30.0 <= b.speed < 50.0
    && b.targetSpeed == b.speed
    && 0 <= b.passengers <= 29
    && b.lastUpdate == now
  }

  lemma SpawnIsFresh(route: RouteData, i: int, rnd: Draws, k: nat, now: int)
    requires 0 <= i < BusesPerRoute
    requires |route.path| >= 2 && UnitDraws(rnd)
    ensures Fresh(Spawn(route, i, rnd, k, now), route, i, now)
  {
    var n := |route.path|;
    RealArith.ScaleBelowOne(rnd(k + 2), (n - 1) as real, rnd(k + 2) * (n - 1) as real);
    RealArith.ScaleBelowOne(rnd(k + 1), 30.0, rnd(k + 1) * 30.0);
  }

  /** Every start segment and every progress within it is reachable: segment
      `s` is drawn by `s / (n - 1)` and progress `p` by `p` itself. */
  lemma StaggerCovers(route: RouteData, i: int, rnd: Draws, k: nat, now: int, s: int, p: real)
    requires 0 <= i < BusesPerRoute
    requires |route.path| >= 2 && 0 <= s <= |route.path| - 2 && 0.0 <= p < 1.0
    requires rnd(k + 2) == s as real / (|route.path| - 1) as real && rnd(k + 3) == p
    ensures 0.0 <= rnd(k + 2) < 1.0
    ensures Spawn(route, i, rnd, k, now).segment == s
    ensures Spawn(route, i, rnd, k, now).progress == p
  {
    var m := (|route.path| - 1) as real;
    RealArith.DivMul(s as real, m);
    RealArith.DivBelow(s as real, m, 1.0);
  }

  /** Every start speed in [30, 50) and every start load in 0..29 is reachable:
      speed `v` is drawn by `(v - 30) / 20` and load `q` by `q / 30`. */
  lemma StartCovers(route: RouteData, i: int, rnd: Draws, k: nat, now: int, v: real, q: int)
    requires 0 <= i < BusesPerRoute
    requires 30.0 <= v < 50.0 && 0 <= q <= 29
    requires rnd(k) == (v - 30.0) / 20.0 && rnd(k + 1) == q as real / 30.0
    ensures 0.0 <= rnd(k) < 1.0 && 0.0 <= rnd(k + 1) < 1.0
    ensures Spawn(route, i, rnd, k, now).speed == v
    ensures Spawn(route, i, rnd, k, now).passengers == q
  {
  }

  lemma DivModSlot(r: int, i: int)
    requires r >= 0 && 0 <= i < BusesPerRoute
    ensures (BusesPerRoute * r + i) / BusesPerRoute == r
    ensures (BusesPerRoute * r + i) % BusesPerRoute == i
  {
  }

  /** The `Simulator` constructor: for each route in order, ten buses in slot
      order, four draws each. A bus of a route with at least two vertices
      starts fresh; the constructor places buses of shorter routes too. */
  method CreateFleet(routes: seq<RouteData>, rnd: Draws, k: nat, now: int) returns (fleet: seq<Bus>, k': nat)
    requires UnitDraws(rnd)
    ensures |fleet| == BusesPerRoute * |routes|
    ensures k' == k + 4 * |fleet|
    ensures forall j :: 0 <= j < |fleet| ==>
      fleet[j] == Spawn(routes[j / BusesPerRoute], j % BusesPerRoute, rnd, k + 4 * j, now)
    ensures forall j :: 0 <= j < |fleet| ==>
      fleet[j].id == BusId(routes[j / BusesPerRoute].id, j % BusesPerRoute)
    ensures forall j :: 0 <= j < |fleet| && |routes[j / BusesPerRoute].path| >= 2 ==>
      Fresh(fleet[j], routes[j / BusesPerRoute], j % BusesPerRoute, now)
  {
    fleet := [];
    k' := k;
    var r := 0;
    while r < |routes|
      invariant 0 <= r <= |routes|
      invariant |fleet| == BusesPerRoute * r
      invariant k' == k + 4 * |fleet|
      invariant forall j :: 0 <= j < |fleet| ==>
        fleet[j] == Spawn(routes[j / BusesPerRoute], j % BusesPerRoute, rnd, k + 4 * j, now)
    {
      var i := 0;
      while i < BusesPerRoute
        invariant 0 <= i <= BusesPerRoute
        invariant |fleet| == BusesPerRoute * r + i
        invariant k' == k + 4 * |fleet|
        invariant forall j :: 0 <= j < |fleet| ==>
          fleet[j] == Spawn(routes[j / BusesPerRoute], j % BusesPerRoute, rnd, k + 4 * j, now)
      {
        var bus := Spawn(routes[r], i, rnd, k', now);
        DivModSlot(r, i);
        fleet := fleet + [bus];
        k' := k' + 4;
        i := i + 1;
      }
      r := r + 1;
    }
    SpawnedFleetIsFresh(routes, fleet, rnd, k, now);
  }

  lemma SpawnedFleetIsFresh(routes: seq<RouteData>, fleet: seq<Bus>, rnd: Draws, k: nat, now: int)
    requires UnitDraws(rnd) && |fleet| == BusesPerRoute * |routes|
    requires forall j :: 0 <= j < |fleet| ==>
      fleet[j] == Spawn(routes[j / BusesPerRoute], j % BusesPerRoute, rnd, k + 4 * j, now)
    ensures forall j :: 0 <= j < |fleet| ==>
      fleet[j].id == BusId(routes[j / BusesPerRoute].id, j % BusesPerRoute)
    ensures forall j :: 0 <= j < |fleet| && |routes[j / BusesPerRoute].path| >= 2 ==>
      Fresh(fleet[j], routes[j / BusesPerRoute], j % BusesPerRoute, now)
  {
    forall j | 0 <= j < |fleet| && |routes[j / BusesPerRoute].path| >= 2
      ensures Fresh(fleet[j], routes[j / BusesPerRoute], j % BusesPerRoute, now)
    {
      SpawnIsFresh(routes[j / BusesPerRoute], j % BusesPerRoute, rnd, k + 4 * j, now);
    }
  }

  /** Ids are unique across the whole fleet when no two routes share an id
      prefix; within one route they always are. */
  lemma FleetIdsUnique(routes: seq<RouteData>, fleet: seq<Bus>)
    requires |fleet| == BusesPerRoute * |routes|
    requires forall j :: 0 <= j < |fleet| ==>
      fleet[j].id == BusId(routes[j / BusesPerRoute].id, j % BusesPerRoute)
    requires forall r, s :: 0 <= r < s < |routes| ==> IdPrefix(routes[r].id) != IdPrefix(routes[s].id)
    ensures forall j1, j2 :: 0 <= j1 < j2 < |fleet| ==> fleet[j1].id != fleet[j2].id
  {
    forall j1, j2 | 0 <= j1 < j2 < |fleet|
      ensures fleet[j1].id != fleet[j2].id
    {
      var r1, r2 := j1 / BusesPerRoute, j2 / BusesPerRoute;
      var i1, i2 := j1 % BusesPerRoute, j2 % BusesPerRoute;
      assert fleet[j1].id == BusId(routes[r1].id, i1);
      assert fleet[j2].id == BusId(routes[r2].id, i2);
      BusIdInjective(routes[r1].id, i1, routes[r2].id, i2);
      assert r1 != r2 || i1 != i2;
      assert r1 <= r2;
    }
  }

  /** Route "1" of the hard-coded route list (backend/src/simulator/index.ts:6-20). */
  function MajesticIndiranagar(): RouteData
  {
    RouteData("1", "Majestic - Indiranagar",
      [Point(77.5702, 12.9779), Point(77.5843, 12.9754), Point(77.6078, 12.9744),
       Point(77.6186, 12.9740), Point(77.6408, 12.9784)],
      Some("#FF0000"))
  }

  /** Halfway along the first segment of route "1" the reported position is
      the midpoint of its first two vertices. */
  lemma MidpointOfFirstSegment(now: int)
    ensures var b := Bus("bus-1-0", "1", MajesticIndiranagar().path, 0, 0.5, 40.0, 40.0, 10, false, now);
      var loc := CurrentLocation(b, now);
      loc.longitude == (77.5702 + 77.5843) / 2.0 && loc.latitude == (12.9779 + 12.9754) / 2.0
  {
  }
}

=== FILE: live_view.dfy ===
/** The dashboard's live bus list (frontend/src/App.tsx): the `busUpdate`
    handler's map upsert, the search filter over the map's values, and the
    conversion of route vertices for drawing. A JavaScript `Map` iterates in
    insertion order, so it is modelled as a sequence of entries. */
module LiveView {
  import opened Wrappers
  import opened SharedTypes
  import opened Text

  datatype Entry = Entry(key: string, value: BusLocation)

  /** A JavaScript `Map<string, BusLocation>`, in iteration order. */
  type BusMap = seq<Entry>

  predicate UniqueKeys(m: BusMap)
  {
    forall i, j :: 0 <= i < j < |m| ==> m[i].key != m[j].key
  }

  function Keys(m: BusMap): set<string>
  {
    set i | 0 <= i < |m| :: m[i].key
  }

  /** Position of `key` in the map, or -1 when absent. */
  function IndexOf(m: BusMap, key: string): (r: int)
    ensures -1 <= r < |m|
    ensures r >= 0 ==> m[r].key == key && forall j :: 0 <= j < r ==> m[j].key != key
    ensures r == -1 <==> key !in Keys(m)
    decreases |m|
  {
    if m == [] then -1
    else if m[0].key == key then 0
    else
      var i := IndexOf(m[1..], key);
      assert key in Keys(m[1..]) ==> key in Keys(m) by {
        if key in Keys(m[1..]) {
          var j :| 0 <= j < |m[1..]| && m[1..][j].key == key;
          assert m[j + 1].key == key;
        }
      }
      if i == -1 then -1 else i + 1
  }

  /** `Map.prototype.get`. */
  function Get(m: BusMap, key: string): (r: Option<BusLocation>)
    ensures r.Some? <==> key in Keys(m)
    ensures r.Some? ==> exists i :: 0 <= i < |m| && m[i] == Entry(key, r.value)
    ensures UniqueKeys(m) ==> forall i :: 0 <= i < |m| && m[i].key == key ==> r == Some(m[i].value)
  {
    var i := IndexOf(m, key);
    if i < 0 then None else Some(m[i].value)
  }

  /** `Map.prototype.set`: an existing key keeps its place and takes the new
      value; a new key goes to the end. */
  function Put(m: BusMap, key: string, value: BusLocation): (r: BusMap)
    ensures Get(r, key) == Some(value)
    ensures forall k :: k != key ==> Get(r, k) == Get(m, k)
    ensures Keys(r) == Keys(m) + {key}
    ensures |r| == if key in Keys(m) then |m| else |m| + 1
    ensures forall i :: 0 <= i < |m| ==> r[i].key == m[i].key
    ensures UniqueKeys(m) ==> UniqueKeys(r)
  {
    var i := IndexOf(m, key);
    if i < 0 then
      var r := m + [Entry(key, value)];
      AppendKeys(m, key, value);
      forall k ensures IndexOf(r, k) == if k == key then |m| else IndexOf(m, k) {
        AppendIndex(m, Entry(key, value), k);
      }
      r
    else
      var r := m[i := Entry(key, value)];
      forall k ensures IndexOf(r, k) == IndexOf(m, k) {
        SameKeysSameIndex(m, r, k);
      }
      assert Keys(r) == Keys(m) by {
        forall x | x in Keys(m) ensures x in Keys(r) {
          var j :| 0 <= j < |m| && m[j].key == x;
          assert r[j].key == x;
        }
      }
      r
  }

  lemma AppendKeys(m: BusMap, key: string, value: BusLocation)
    ensures Keys(m + [Entry(key, value)]) == Keys(m) + {key}
  {
    var r := m + [Entry(key, value)];
    forall x | x in Keys(r) ensures x in Keys(m) + {key} {
      var j :| 0 <= j < |r| && r[j].key == x;
      if j < |m| { assert m[j].key == x; }
    }
    assert r[|m|].key == key;
    forall x | x in Keys(m) ensures x in Keys(r) {
      var j :| 0 <= j < |m| && m[j].key == x;
      assert r[j].key == x;
    }
  }

  /** Appending an entry finds it only where no earlier entry has its key. */
  lemma {:induction false} AppendIndex(m: BusMap, e: Entry, k: string)
    ensures IndexOf(m + [e], k) ==
      if IndexOf(m, k) >= 0 then IndexOf(m, k) else if e.key == k then |m| else -1
    decreases |m|
  {
    if m != [] {
      assert (m + [e])[1..] == m[1..] + [e];
      AppendIndex(m[1..], e, k);
    }
  }

  /** Two maps with the same keys in the same places index alike. */
  lemma {:induction false} SameKeysSameIndex(m: BusMap, r: BusMap, k: string)
    requires |m| == |r| && forall j :: 0 <= j < |m| ==> m[j].key == r[j].key
    ensures IndexOf(m, k) == IndexOf(r, k)
    decreases |m|
  {
    if m != [] {
      SameKeysSameIndex(m[1..], r[1..], k);
    }
  }

  /** The `busUpdate` handler (App.tsx:161-170): the map gains or replaces the
      entry of the reporting bus and nothing else. */
  function OnBusUpdate(buses: BusMap, data: BusLocation): (r: BusMap)
    ensures Get(r, data.busId) == Some(data)
    ensures forall id :: id != data.busId ==> Get(r, id) == Get(buses, id)
    ensures |buses| <= |r| <= |buses| + 1
    ensures data.busId in Keys(buses) ==> |r| == |buses|
    ensures UniqueKeys(buses) ==> UniqueKeys(r)
  {
    Put(buses, data.busId, data)
  }

  /** `Array.from(buses.values())`. */
  function Values(m: BusMap): (r: seq<BusLocation>)
    ensures |r| == |m| && forall i :: 0 <= i < |m| ==> r[i] == m[i].value
  {
    seq(|m|, i requires 0 <= i < |m| => m[i].value)
  }

  /** The search condition (App.tsx:46-47). */
  predicate Matches(bus: BusLocation, query: string)
    ensures query == "" ==> Matches(bus, query)
    ensures Lower(query) == Lower(bus.busId) || Lower(query) == Lower(bus.routeId) ==> Matches(bus, query)
  {
    ContainsEmpty(Lower(bus.busId));
    ContainsSelf(Lower(bus.busId));
    ContainsSelf(Lower(bus.routeId));
    Contains(Lower(bus.busId), Lower(query)) || Contains(Lower(bus.routeId), Lower(query))
  }

  /** a is b with some elements left out, order kept. */
  predicate Subsequence(a: seq<BusLocation>, b: seq<BusLocation>)
    decreases |b|
  {
    if a == [] then true
    else if b == [] then false
    else if a[0] == b[0] then Subsequence(a[1..], b[1..])
    else Subsequence(a, b[1..])
  }

  /** `busList.filter(...)` (App.tsx:45-48): only matching buses, in list
      order. */
  function KeepMatching(list: seq<BusLocation>, query: string): (r: seq<BusLocation>)
    ensures forall i :: 0 <= i < |r| ==> Matches(r[i], query)
    ensures Subsequence(r, list)
    decreases |list|
  {
    if list == [] then []
    else
      var rest := KeepMatching(list[1..], query);
      if Matches(list[0], query) then
        assert ([list[0]] + rest)[1..] == rest;
        [list[0]] + rest
      else
        assert rest == [] || Subsequence(rest, list[1..]);
        rest
  }

  /** The filter drops nothing that matches: each bus occurs in the result
      exactly as often as in the list when it matches, and not at all
      otherwise. */
  lemma {:induction false} KeepMatchingCounts(list: seq<BusLocation>, query: string, x: BusLocation)
    ensures multiset(KeepMatching(list, query))[x] == if Matches(x, query) then multiset(list)[x] else 0
    decreases |list|
  {
    if list != [] {
      KeepMatchingCounts(list[1..], query, x);
      assert list == [list[0]] + list[1..];
      assert multiset(list) == multiset{list[0]} + multiset(list[1..]);
      if Matches(list[0], query) {
        var rest := KeepMatching(list[1..], query);
        assert multiset([list[0]] + rest) == multiset{list[0]} + multiset(rest);
      }
    }
  }

  /** `filteredBuses` (App.tsx:42-49): an empty query lists every bus. */
  function FilteredBuses(buses: BusMap, query: string): (r: seq<BusLocation>)
    ensures query == "" ==> r == Values(buses)
    ensures forall i :: 0 <= i < |r| ==> Matches(r[i], query)
    ensures forall i :: 0 <= i < |buses| && Matches(buses[i].value, query) ==> buses[i].value in r
    ensures Subsequence(r, Values(buses))
  {
    var busList := Values(buses);
    if query == "" then
      EmptyQueryMatchesAll(busList);
      busList
    else
      var r := KeepMatching(busList, query);
      forall i | 0 <= i < |buses| && Matches(buses[i].value, query)
        ensures buses[i].value in r
      {
        assert busList[i] in multiset(busList);
        KeepMatchingCounts(busList, query, busList[i]);
      }
      r
  }

  lemma SubsequenceReflexive(a: seq<BusLocation>)
    ensures Subsequence(a, a)
    decreases |a|
  {
    if a != [] {
      SubsequenceReflexive(a[1..]);
    }
  }

  /** Every bus matches the empty query, so the early return of App.tsx:44
      agrees with the filter. */
  lemma EmptyQueryMatchesAll(list: seq<BusLocation>)
    ensures forall i :: 0 <= i < |list| ==> Matches(list[i], "")
    ensures KeepMatching(list, "") == list
    ensures Subsequence(list, list)
  {
    forall i | 0 <= i < |list| ensures Matches(list[i], "") {
      ContainsEmpty(Lower(list[i].busId));
    }
    SubsequenceReflexive(list);
    KeepAllWhenAllMatch(list, "");
  }

  lemma {:induction false} KeepAllWhenAllMatch(list: seq<BusLocation>, query: string)
    requires forall i :: 0 <= i < |list| ==> Matches(list[i], query)
    ensures KeepMatching(list, query) == list
    decreases |list|
  {
    if list != [] {
      KeepAllWhenAllMatch(list[1..], query);
    }
  }

  /** The search ignores the case of the query. */
  lemma FilterIgnoresQueryCase(buses: BusMap, q1: string, q2: string)
    requires Lower(q1) == Lower(q2)
    ensures FilteredBuses(buses, q1) == FilteredBuses(buses, q2)
  {
    if q1 != "" && q2 != "" {
      assert forall x :: Matches(x, q1) == Matches(x, q2);
      KeepSameQuery(Values(buses), q1, q2);
    }
  }

  lemma {:induction false} KeepSameQuery(list: seq<BusLocation>, q1: string, q2: string)
    requires Lower(q1) == Lower(q2)
    ensures KeepMatching(list, q1) == KeepMatching(list, q2)
    decreases |list|
  {
    if list != [] {
      KeepSameQuery(list[1..], q1, q2);
    }
  }

  /** `route.path.coordinates.map(coord => [coord[1], coord[0]])` (App.tsx:126):
      GeoJSON `[lon, lat]` pairs become Leaflet `[lat, lon]` pairs. */
  function ToLatLngs(coords: seq<(real, real)>): (r: seq<(real, real)>)
    ensures |r| == |coords|
    ensures forall i :: 0 <= i < |r| ==> r[i].0 == coords[i].1 && r[i].1 == coords[i].0
  {
    seq(|coords|, i requires 0 <= i < |coords| => (coords[i].1, coords[i].0))
  }

  /** Swapping twice restores the vertices: no vertex is lost or reordered. */
  lemma SwapTwiceIsIdentity(coords: seq<(real, real)>)
    ensures ToLatLngs(ToLatLngs(coords)) == coords
  {
  }
}

=== FILE: motion.dfy ===
/** The simulated bus (class `Bus`, backend/src/simulator/Simulator.ts:28-129).

    Every `Math.random()` call is one element of a draw stream `rnd`, read in
    the order the source calls it, from a cursor that each operation returns
    advanced. `Date.now()` is the parameter `now` (milliseconds). */
module Motion {
  import opened RouteGeometry
  import opened SharedTypes
  import RealArith

  const MaxPassengers: int := 60
  /** Chance that a segment boundary acts as a stop (Simulator.ts:92). */
  const StopChance: real := 0.2
  /** Chance per tick that the target speed is re-rolled (Simulator.ts:59). */
  const RerollChance: real := 0.05

  /** The values successive `Math.random()` calls return. */
  type Draws = nat -> real

  ghost predicate UnitDraws(rnd: Draws)
  {
    forall i: nat :: 0.0 <= rnd(i) < 1.0
  }

  datatype Bus = Bus(
    id: string,
    routeId: string,
    path: seq<Point>,
    segment: int,
    progress: real,
    speed: real,
    targetSpeed: real,
    passengers: int,
    reverse: bool,
    lastUpdate: int)

  /** Index of the vertex the bus is heading for (Simulator.ts:71, 112). */
  function NextIndex(b: Bus): int
  {
    if b.reverse then b.segment - 1 else b.segment + 1
  }

  /** The position invariant. Going forward the bus is at most at vertex n-2,
      going in reverse at least at vertex 1; so the vertex it heads for always
      exists and the `!nextPoint` branch (Simulator.ts:73-78) is dead. The
      index itself ranges over [0, n-1]: vertex n-1 is a valid position when
      reversing. */
  predicate OnRoute(b: Bus)
  {
    && |b.path| >= 2
    && 0 <= b.segment < |b.path|
    && (if b.reverse then 1 <= b.segment else b.segment <= |b.path| - 2)
    && 0.0 <= b.progress < 1.0
  }

  /** OnRoute plus the passenger and speed ranges. */
  predicate Valid(b: Bus)
  {
    && OnRoute(b)
    && 0 <= b.passengers <= MaxPassengers
    && 20.0 <= b.speed < 60.0
    && 20.0 <= b.targetSpeed < 60.0
  }

  /** The vertex the bus heads for exists whenever the bus is on its route. */
  lemma NextVertexExists(b: Bus)
    requires OnRoute(b)
    ensures 0 <= NextIndex(b) < |b.path|
    ensures NextIndex(b) != b.segment
  {
  }

  /** The fields the walk never writes. */
  predicate SameJourney(b: Bus, c: Bus)
  {
    && c.id == b.id
    && c.routeId == b.routeId
    && c.path == b.path
    && c.speed == b.speed
    && c.targetSpeed == b.targetSpeed
    && c.lastUpdate == b.lastUpdate
  }

  /** `Math.floor(Math.random() * 11) - 5` (Simulator.ts:106). */
  function PassengerDelta(u: real): (d: int)
    requires 0.0 <= u < 1.0
    ensures -5 <= d <= 5
  {
    (u * 11.0).Floor - 5
  }

  /** Every delta in [-5, 5] is produced by some draw. */
  lemma PassengerDeltaCovers(d: int)
    requires -5 <= d <= 5
    ensures var u := (d + 5) as real / 11.0; 0.0 <= u < 1.0 && PassengerDelta(u) == d
  {
  }

  /** `simulatePassengerChange` (Simulator.ts:104-108). */
  function ChangePassengers(p: int, u: real): (r: int)
    requires 0.0 <= u < 1.0
    ensures 0 <= r <= MaxPassengers
    ensures 0 <= p + PassengerDelta(u) <= MaxPassengers ==> r == p + PassengerDelta(u)
    ensures p + PassengerDelta(u) < 0 ==> r == 0
    ensures p + PassengerDelta(u) > MaxPassengers ==> r == MaxPassengers
    ensures 0 <= p <= MaxPassengers ==> -5 <= r - p <= 5
  {
    MaxInt(0, MinInt(MaxPassengers, p + PassengerDelta(u)))
  }

  /** `Math.max` and `Math.min` on integers. */
  function MaxInt(a: int, b: int): int
  {
    if a < b then b else a
  }

  function MinInt(a: int, b: int): int
  {
    if b < a then b else a
  }

  /** Passenger count after any number of changes. */
  function ChangeAll(p: int, us: seq<real>): int
    requires forall i :: 0 <= i < |us| ==> 0.0 <= us[i] < 1.0
    decreases |us|
  {
    if us == [] then p else ChangeAll(ChangePassengers(p, us[0]), us[1..])
  }

  /** A count that starts in [0, 60] stays there, and moves by at most five
      per change, whatever the draws. */
  lemma {:induction false} PassengersStayInRange(p: int, us: seq<real>)
    requires 0 <= p <= MaxPassengers
    requires forall i :: 0 <= i < |us| ==> 0.0 <= us[i] < 1.0
    ensures 0 <= ChangeAll(p, us) <= MaxPassengers
    ensures -5 * |us| <= ChangeAll(p, us) - p <= 5 * |us|
    decreases |us|
  {
    if us != [] {
      PassengersStayInRange(ChangePassengers(p, us[0]), us[1..]);
    }
  }

  /** The virtual stop at a segment boundary (Simulator.ts:92-94): one draw
      decides, and a second draw is the change when it fires. */
  function StopPassengers(p: int, rnd: Draws, k: nat): (r: int)
    requires UnitDraws(rnd)
    ensures rnd(k) >= StopChance ==> r == p
    ensures rnd(k) < StopChance ==> r == ChangePassengers(p, rnd(k + 1))
    ensures 0 <= p <= MaxPassengers ==> 0 <= r <= MaxPassengers && -5 <= r - p <= 5
  {
    if rnd(k) < StopChance then ChangePassengers(p, rnd(k + 1)) else p
  }

  /** The cursor after the stop: one draw, plus one more when the stop fires. */
  function StopCursor(rnd: Draws, k: nat): (c: nat)
    ensures c == k + 1 || c == k + 2
    ensures c == k + 2 <==> rnd(k) < StopChance
  {
    if rnd(k) < StopChance then k + 2 else k + 1
  }

  datatype SpeedDraw = SpeedDraw(speed: real, target: real, cursor: nat)

  /** Target re-roll and exponential smoothing (Simulator.ts:58-63): each tick
      closes a tenth of the gap to the target speed. */
  function AdjustSpeed(speed: real, target: real, rnd: Draws, k: nat): (r: SpeedDraw)
    requires UnitDraws(rnd)
    ensures rnd(k) >= RerollChance ==> r.target == target && r.cursor == k + 1
    ensures rnd(k) < RerollChance ==> 20.0 <= r.target < 60.0 && r.cursor == k + 2
    ensures rnd(k) < RerollChance ==> (r.target - 20.0) / 40.0 == rnd(k + 1)
    ensures r.target - r.speed == 0.9 * (r.target - speed)
    ensures speed <= r.target ==> speed <= r.speed <= r.target
    ensures r.target <= speed ==> r.target <= r.speed <= speed
    ensures 20.0 <= speed < 60.0 && 20.0 <= target < 60.0 ==> 20.0 <= r.speed < 60.0 && 20.0 <= r.target < 60.0
  {
    var t := if rnd(k) < RerollChance then 20.0 + rnd(k + 1) * 40.0 else target;
    var c := if rnd(k) < RerollChance then k + 2 else k + 1;
    SpeedDraw(speed + (t - speed) * 0.1, t, c)
  }

  /** Every target in [20, 60) is the outcome of a re-roll: the one whose
      second draw is `(t - 20) / 40`. */
  lemma RerollCovers(speed: real, target: real, rnd: Draws, k: nat, t: real)
    requires UnitDraws(rnd) && 20.0 <= t < 60.0
    requires rnd(k) < RerollChance && rnd(k + 1) == (t - 20.0) / 40.0
    ensures AdjustSpeed(speed, target, rnd, k).target == t
  {
  }

  /** Length of the segment being driven, in the direction of travel
      (Simulator.ts:80). */
  function SegmentLength(b: Bus, len: Metric): (l: real)
    requires OnRoute(b)
    ensures l == len(b.path[b.segment], b.path[NextIndex(b)])
    ensures Walkable(b.path, len) ==> l > 0.0
  {
    if b.reverse then HopBack(b.path, len, b.segment - 1) else Hop(b.path, len, b.segment)
  }

  /** Distance left before the next vertex (Simulator.ts:81). */
  function LeftInSegment(b: Bus, len: Metric): real
    requires OnRoute(b)
  {
    SegmentLength(b, len) * (1.0 - b.progress)
  }

  lemma LeftInSegmentPositive(b: Bus, len: Metric)
    requires OnRoute(b) && Walkable(b.path, len)
    ensures LeftInSegment(b, len) > 0.0
    ensures LeftInSegment(b, len) == SegmentLength(b, len) - b.progress * SegmentLength(b, len)
    ensures b.progress == 0.0 ==> LeftInSegment(b, len) == SegmentLength(b, len)
  {
    RealArith.Remainder(SegmentLength(b, len), b.progress, LeftInSegment(b, len));
  }

  /** The direction flips at an index at or beyond either end (Simulator.ts:96). */
  predicate AtEnd(b: Bus)
  {
    b.segment <= 0 || b.segment >= |b.path| - 1
  }

  /** Where the bus is on the out-and-back circuit, measured from vertex 0
      heading forward: the outward leg covers [0, Forward(n-1)), the return
      leg the rest of [0, Circuit). */
  function Arc(b: Bus, len: Metric): real
    requires OnRoute(b)
  {
    if b.reverse then
      Forward(b.path, len, |b.path| - 1) + Backward(b.path, len, b.segment) + b.progress * SegmentLength(b, len)
    else
      Forward(b.path, len, b.segment) + b.progress * SegmentLength(b, len)
  }

  /** The arc position depends only on the route and the position fields. */
  lemma ArcOfPosition(b: Bus, c: Bus, len: Metric)
    requires OnRoute(b)
    requires c.path == b.path && c.segment == b.segment && c.reverse == b.reverse && c.progress == b.progress
    ensures OnRoute(c) && Arc(c, len) == Arc(b, len)
  {
    assert SegmentLength(c, len) == SegmentLength(b, len);
  }

  /** The arc position is a point of the circuit. */
  lemma ArcOnCircuit(b: Bus, len: Metric)
    requires OnRoute(b) && Walkable(b.path, len)
    ensures 0.0 <= Arc(b, len) < Circuit(b.path, len)
  {
    var L := SegmentLength(b, len);
    RealArith.ScaleBelowOne(b.progress, L, b.progress * L);
    if b.reverse {
      ReturnLegBounds(b, len, b.progress * L);
    } else {
      OutwardLegBounds(b, len, b.progress * L);
    }
  }

  lemma OutwardLegBounds(b: Bus, len: Metric, done: real)
    requires OnRoute(b) && Walkable(b.path, len) && !b.reverse
    requires done == b.progress * SegmentLength(b, len) && 0.0 <= done < SegmentLength(b, len)
    ensures 0.0 <= Arc(b, len) < Forward(b.path, len, |b.path| - 1)
    ensures Forward(b.path, len, |b.path| - 1) <= Circuit(b.path, len)
  {
    var n := |b.path|;
    ForwardMonotone(b.path, len, b.segment + 1, n - 1);
    ForwardMonotone(b.path, len, 0, b.segment);
    BackwardMonotone(b.path, len, 0, n - 1);
    assert Forward(b.path, len, b.segment + 1) == Forward(b.path, len, b.segment) + SegmentLength(b, len);
  }

  lemma ReturnLegBounds(b: Bus, len: Metric, done: real)
    requires OnRoute(b) && Walkable(b.path, len) && b.reverse
    requires done == b.progress * SegmentLength(b, len) && 0.0 <= done < SegmentLength(b, len)
    ensures Forward(b.path, len, |b.path| - 1) <= Arc(b, len) < Circuit(b.path, len)
    ensures 0.0 <= Forward(b.path, len, |b.path| - 1)
  {
    var n := |b.path|;
    ForwardMonotone(b.path, len, 0, n - 1);
    BackwardMonotone(b.path, len, 0, b.segment - 1);
    BackwardMonotone(b.path, len, b.segment, n - 1);
    assert Backward(b.path, len, b.segment - 1) == Backward(b.path, len, b.segment) + SegmentLength(b, len);
  }

  /** The budget ends inside the segment (Simulator.ts:83-85). */
  function Advance(b: Bus, remaining: real, len: Metric): (c: Bus)
    requires OnRoute(b) && Walkable(b.path, len)
    requires 0.0 < remaining < LeftInSegment(b, len)
    ensures c == b.(progress := c.progress)
    ensures b.progress < c.progress < 1.0
    ensures Arc(c, len) == Arc(b, len) + remaining
  {
    var L := SegmentLength(b, len);
    RealArith.DivBelow(remaining, L, 1.0 - b.progress);
    RealArith.DivMul(remaining, L);
    RealArith.MulPos(remaining, 1.0 / L);
    var c := b.(progress := b.progress + remaining / L);
    assert SegmentLength(c, len) == L;
    assert c.progress * L == b.progress * L + remaining / L * L;
    c
  }

  datatype Arrival = Arrival(bus: Bus, cursor: nat)

  /** The bus reaches the next vertex (Simulator.ts:86-99): progress resets,
      the index moves one vertex in the direction of travel, the boundary may
      act as a stop, and at either end the bus turns round and passengers
      change once more. */
  function Arrive(b: Bus, rnd: Draws, k: nat, len: Metric): (a: Arrival)
    requires Valid(b) && Walkable(b.path, len) && UnitDraws(rnd)
    ensures Valid(a.bus) && SameJourney(b, a.bus)
    ensures a.bus.progress == 0.0 && a.bus.segment == NextIndex(b)
    ensures a.bus.reverse != b.reverse <==> AtEnd(a.bus)
    ensures !AtEnd(a.bus) ==>
      && a.cursor == StopCursor(rnd, k)
      && a.bus.passengers == StopPassengers(b.passengers, rnd, k)
    ensures AtEnd(a.bus) ==>
      && a.cursor == StopCursor(rnd, k) + 1
      && a.bus.passengers == ChangePassengers(StopPassengers(b.passengers, rnd, k), rnd(StopCursor(rnd, k)))
    ensures Arc(a.bus, len) == Arc(b, len) + LeftInSegment(b, len)
      - (if b.reverse && b.segment == 1 then Circuit(b.path, len) else 0.0)
  {
    var seg := NextIndex(b);
    var stopped := StopPassengers(b.passengers, rnd, k);
    var c := StopCursor(rnd, k);
    var arrived := b.(segment := seg, progress := 0.0, passengers := stopped);
    var a :=
      if seg <= 0 || seg >= |b.path| - 1 then
        Arrival(arrived.(reverse := !b.reverse, passengers := ChangePassengers(stopped, rnd(c))), c + 1)
      else
        Arrival(arrived, c);
    ArriveArc(b, a.bus, len);
    a
  }

  lemma ArriveArc(b: Bus, c: Bus, len: Metric)
    requires OnRoute(b) && Walkable(b.path, len)
    requires c.path == b.path && c.progress == 0.0 && c.segment == NextIndex(b)
    requires c.reverse != b.reverse <==> AtEnd(c)
    ensures OnRoute(c)
    ensures Arc(c, len) == Arc(b, len) + LeftInSegment(b, len)
      - (if b.reverse && b.segment == 1 then Circuit(b.path, len) else 0.0)
  {
    var n := |b.path|;
    var i := b.segment;
    var L := SegmentLength(b, len);
    LeftInSegmentPositive(b, len);
    assert Arc(c, len) == (if c.reverse then Forward(b.path, len, n - 1) + Backward(b.path, len, c.segment)
                           else Forward(b.path, len, c.segment));
    if !b.reverse {
      assert Forward(b.path, len, i + 1) == Forward(b.path, len, i) + L;
    } else {
      assert Backward(b.path, len, i - 1) == Backward(b.path, len, i) + L;
    }
  }

  datatype StepResult = StepResult(bus: Bus, remaining: real, cursor: nat)

  /** The crossing from vertex 1 to vertex 0 in reverse closes a lap. */
  predicate Wraps(b: Bus, remaining: real, len: Metric)
    requires OnRoute(b)
  {
    b.reverse && b.segment == 1 && remaining >= LeftInSegment(b, len)
  }

  /** One iteration of the walk loop (Simulator.ts:69-101) with a positive
      budget left. The bus stays on its route, moves round the circuit by
      exactly the distance consumed (one lap less when it turns at vertex 0),
      and consumes draws only when it reaches a vertex. */
  function Step(b: Bus, remaining: real, rnd: Draws, k: nat, len: Metric): (r: StepResult)
    requires Valid(b) && Walkable(b.path, len) && UnitDraws(rnd)
    requires remaining > 0.0
    ensures Valid(r.bus) && SameJourney(b, r.bus)
    ensures 0.0 <= r.remaining < remaining
    ensures r.cursor >= k
    ensures Arc(r.bus, len) + r.remaining
      == Arc(b, len) + remaining - (if Wraps(b, remaining, len) then Circuit(b.path, len) else 0.0)
    ensures remaining < LeftInSegment(b, len) ==>
      && r.remaining == 0.0
      && r.cursor == k
      && r.bus.segment == b.segment
      && r.bus.reverse == b.reverse
      && r.bus.passengers == b.passengers
      && b.progress < r.bus.progress
    ensures remaining >= LeftInSegment(b, len) ==>
      && r.remaining == remaining - LeftInSegment(b, len)
      && r.bus.progress == 0.0
      && r.bus.segment == NextIndex(b)
  {
    LeftInSegmentPositive(b, len);
    if remaining < LeftInSegment(b, len) then
      StepResult(Advance(b, remaining, len), 0.0, k)
    else
      var a := Arrive(b, rnd, k, len);
      StepResult(a.bus, remaining - LeftInSegment(b, len), a.cursor)
  }

  /** Whole multiples of the shortest segment left in the budget: the integer
      part of the termination measure. */
  function Units(x: real, m: real): nat
    requires m > 0.0
  {
    if x <= 0.0 then 0 else (x / m).Floor
  }

  lemma UnitsMonotone(x: real, y: real, m: real)
    requires m > 0.0 && y <= x
    ensures Units(y, m) <= Units(x, m)
  {
    if y > 0.0 {
      RealArith.DivMonotone(y, x, m);
    }
  }

  lemma UnitsDrop(x: real, d: real, m: real)
    requires 0.0 < m <= d <= x
    ensures Units(x - d, m) < Units(x, m)
  {
    RealArith.DivSub(x, d, m);
    RealArith.DivAtLeastOne(d, m);
    RealArith.DivAtLeastOne(x, m);
  }

  /** A step never grows the whole-segment count of the budget, and a
      crossing that starts at a vertex lowers it. */
  lemma StepShrinks(cur: Bus, remaining: real, rnd: Draws, k: nat, len: Metric)
    requires Valid(cur) && Walkable(cur.path, len) && UnitDraws(rnd)
    requires remaining > 0.0
    ensures var m := ShortestSegment(cur.path, len, 0);
      var s := Step(cur, remaining, rnd, k, len);
      && Units(s.remaining, m) <= Units(remaining, m)
      && (remaining >= LeftInSegment(cur, len) && cur.progress == 0.0 ==> Units(s.remaining, m) < Units(remaining, m))
  {
    var m := ShortestSegment(cur.path, len, 0);
    var s := Step(cur, remaining, rnd, k, len);
    UnitsMonotone(remaining, s.remaining, m);
    if remaining >= LeftInSegment(cur, len) && cur.progress == 0.0 {
      LeftInSegmentPositive(cur, len);
      if cur.reverse {
        assert m <= HopBack(cur.path, len, cur.segment - 1);
      } else {
        assert m <= Hop(cur.path, len, cur.segment);
      }
      UnitsDrop(remaining, LeftInSegment(cur, len), m);
    }
  }

  /** The loop of Simulator.ts:69-101 run from any point with a non-negative
      budget: it ends, keeps the bus on its route, and the whole laps it
      completes account for the budget exactly. */
  method Travel(start: Bus, budget: real, rnd: Draws, k: nat, len: Metric)
    returns (b': Bus, k': nat, ghost laps: nat)
    requires Valid(start) && Walkable(start.path, len) && UnitDraws(rnd)
    requires budget >= 0.0
    ensures Valid(b') && SameJourney(start, b')
    ensures k' >= k
    ensures budget == 0.0 ==> b' == start && k' == k
    ensures Arc(b', len) + RealArith.Repeat(laps, Circuit(start.path, len)) == Arc(start, len) + budget
  {
    var cur := start;
    var remaining := budget;
    k' := k;
    laps := 0;
    ghost var circuit := Circuit(start.path, len);
    ghost var m := ShortestSegment(start.path, len, 0);
    while remaining > 0.0
      invariant Valid(cur) && SameJourney(start, cur)
      invariant k' >= k && remaining >= 0.0
      invariant budget == 0.0 ==> cur == start && k' == k
      invariant Arc(cur, len) + remaining + RealArith.Repeat(laps, circuit) == Arc(start, len) + budget
      decreases Units(remaining, m), if remaining > 0.0 then 1 else 0, if cur.progress > 0.0 then 1 else 0
    {
      var s := Step(cur, remaining, rnd, k', len);
      StepShrinks(cur, remaining, rnd, k', len);
      if Wraps(cur, remaining, len) {
        laps := laps + 1;
      }
      cur, remaining, k' := s.bus, s.remaining, s.cursor;
    }
    b' := cur;
  }

  /** The walk loop (Simulator.ts:65-101) over a distance budget in km. It
      ends, keeps the bus on its route, and moves it round the circuit by
      exactly the budget. */
  method Walk(b: Bus, budget: real, rnd: Draws, k: nat, len: Metric) returns (b': Bus, k': nat)
    requires Valid(b) && Walkable(b.path, len) && UnitDraws(rnd)
    ensures Valid(b') && SameJourney(b, b')
    ensures k' >= k
    ensures budget <= 0.0 ==> b' == b && k' == k
    ensures budget > 0.0 ==> RealArith.UpToLaps(Arc(b', len), Arc(b, len) + budget, Circuit(b.path, len))
    ensures 0.0 < budget < LeftInSegment(b, len) ==>
      && b'.segment == b.segment
      && b'.reverse == b.reverse
      && b'.passengers == b.passengers
      && b'.progress > b.progress
      && k' == k
    ensures budget > 0.0 && budget == LeftInSegment(b, len) ==>
      b'.progress == 0.0 && b'.segment == NextIndex(b)
  {
    if budget <= 0.0 {
      return b, k;
    }
    var first := Step(b, budget, rnd, k, len);
    ghost var laps;
    b', k', laps := Travel(first.bus, first.remaining, rnd, first.cursor, len);
    ghost var circuit := Circuit(b.path, len);
    ghost var total: nat := if Wraps(b, budget, len) then laps + 1 else laps;
    assert RealArith.Repeat(total, circuit)
      == RealArith.Repeat(laps, circuit) + (if Wraps(b, budget, len) then circuit else 0.0);
    RealArith.LapWitness(Arc(b', len), Arc(b, len) + budget, total, circuit);
  }

  /** Distance covered at `speed` km/h in `elapsedMs` milliseconds
      (Simulator.ts:55, 65). */
  function Distance(speed: real, elapsedMs: int): (d: real)
    ensures speed > 0.0 ==> (d > 0.0 <==> elapsedMs > 0)
  {
    var d := speed / 3600.0 * (elapsedMs as real / 1000.0);
    DistanceSign(speed, elapsedMs as real / 1000.0, d);
    d
  }

  lemma DistanceSign(speed: real, seconds: real, d: real)
    requires d == speed / 3600.0 * seconds
    ensures speed > 0.0 ==> (d > 0.0 <==> seconds > 0.0)
  {
    if speed > 0.0 && seconds > 0.0 {
      RealArith.MulPos(speed / 3600.0, seconds);
    } else if speed > 0.0 {
      RealArith.MulNonneg(speed / 3600.0, -seconds);
    }
  }

  /** Units: 36 km/h for one second covers 10 m, and one hour at `speed` km/h
      covers `speed` km. */
  lemma DistanceUnits(speed: real)
    ensures Distance(36.0, 1000) == 0.01
    ensures Distance(speed, 3600 * 1000) == speed
  {
  }

  /** Distance is additive over consecutive intervals of elapsed time. */
  lemma DistanceAdditive(speed: real, a: int, c: int)
    ensures Distance(speed, a + c) == Distance(speed, a) + Distance(speed, c)
  {
  }

  /** `move` (Simulator.ts:53-102): re-roll and smooth the speed, then walk the
      distance the elapsed time allows. */
  method Move(b: Bus, now: int, rnd: Draws, k: nat, len: Metric) returns (b': Bus, k': nat)
    requires Valid(b) && Walkable(b.path, len) && UnitDraws(rnd)
    ensures Valid(b')
    ensures b'.id == b.id && b'.routeId == b.routeId && b'.path == b.path
    ensures b'.lastUpdate == now
    ensures k' > k
    ensures rnd(k) >= RerollChance ==> b'.targetSpeed == b.targetSpeed
    ensures b'.targetSpeed - b'.speed == 0.9 * (b'.targetSpeed - b.speed)
    ensures now <= b.lastUpdate ==>
      && b'.segment == b.segment
      && b'.progress == b.progress
      && b'.reverse == b.reverse
      && b'.passengers == b.passengers
    ensures now > b.lastUpdate ==>
      RealArith.UpToLaps(Arc(b', len), Arc(b, len) + Distance(b'.speed, now - b.lastUpdate), Circuit(b.path, len))
  {
    var sd := AdjustSpeed(b.speed, b.targetSpeed, rnd, k);
    var moving := b.(speed := sd.speed, targetSpeed := sd.target, lastUpdate := now);
    var distance := Distance(sd.speed, now - b.lastUpdate);
    ArcOfPosition(b, moving, len);
    b', k' := Walk(moving, distance, rnd, sd.cursor, len);
  }

  /** `this.path[nextIdx] || p1` (Simulator.ts:113): the vertex headed for, or
      the current vertex when there is none; on its route a bus never falls
      back. */
  function Heading(b: Bus): (p2: Point)
    requires 0 <= b.segment < |b.path|
    ensures OnRoute(b) ==> p2 == b.path[NextIndex(b)]
  {
    if 0 <= NextIndex(b) < |b.path| then b.path[NextIndex(b)] else b.path[b.segment]
  }

  /** `getCurrentLocation` (Simulator.ts:110-128): linear interpolation from
      the current vertex towards the next. */
  function CurrentLocation(b: Bus, now: int): (loc: BusLocation)
    requires 0 <= b.segment < |b.path|
    ensures loc.busId == b.id && loc.routeId == b.routeId
    ensures loc.speed == b.speed && loc.passengers == b.passengers
    ensures loc.timestamp == now
    ensures loc.longitude == (1.0 - b.progress) * b.path[b.segment].lon + b.progress * Heading(b).lon
    ensures loc.latitude == (1.0 - b.progress) * b.path[b.segment].lat + b.progress * Heading(b).lat
    ensures b.progress == 0.0 ==>
      loc.longitude == b.path[b.segment].lon && loc.latitude == b.path[b.segment].lat
    ensures 0.0 <= b.progress <= 1.0 ==>
      && RealArith.Between(loc.longitude, b.path[b.segment].lon, Heading(b).lon)
      && RealArith.Between(loc.latitude, b.path[b.segment].lat, Heading(b).lat)
  {
    var p1 := b.path[b.segment];
    var p2 := Heading(b);
    BusLocation(b.id, b.routeId, RealArith.Lerp(p1.lat, p2.lat, b.progress), RealArith.Lerp(p1.lon, p2.lon, b.progress),
      b.speed, b.passengers, now)
  }
}

=== FILE: processor.dfy ===
/** The stream processor's per-message handler (the `eachMessage` callback,
    backend/src/processor/consumer.ts:10-40) as a pure transition over the
    Redis stores it writes and the channel it publishes to.

    Redis is abstracted as three maps: the `bus:<id>:location` string keys,
    the `bus_positions` geo set, and the `heatmap:<lat>:<lon>` counters with
    their time-to-live. Each Redis command may fail; a failure throws, the
    `catch` logs it, and every later command of that message is skipped. */
module Processor {
  import opened Wrappers
  import opened SharedTypes

  /** `redis.expire(gridKey, 300)`, in milliseconds. */
  const CellTtlMs: int := 300 * 1000

  /** Grid cell of a reading: `Math.floor(latitude * 1000)`,
      `Math.floor(longitude * 1000)` (consumer.ts:25-27). */
  datatype CellKey = CellKey(latGrid: int, lonGrid: int)

  /** A heat counter and its absolute expiry time; `None` is a key without a
      time-to-live. */
  datatype Cell = Cell(count: int, expiry: Option<int>)

  datatype GeoEntry = GeoEntry(longitude: real, latitude: real)

  datatype Stores = Stores(
    latest: map<string, BusLocation>,
    geo: map<string, GeoEntry>,
    heat: map<CellKey, Cell>,
    outbox: seq<BusLocation>)

  /** One grid coordinate: the 0.001-degree cell the value falls in. */
  function Quantise(x: real): (g: int)
    ensures g as real / 1000.0 <= x < (g + 1) as real / 1000.0
  {
    (x * 1000.0).Floor
  }

  /** The cell a value falls in is unique. */
  lemma QuantiseUnique(x: real, g: int)
    requires g as real / 1000.0 <= x < (g + 1) as real / 1000.0
    ensures Quantise(x) == g
  {
  }

  /** Two values in one cell are less than 0.001 apart. */
  lemma SameCellIsNear(x: real, y: real)
    requires Quantise(x) == Quantise(y)
    ensures -0.001 < x - y < 0.001
  {
  }

  /** Nearness does not imply the same cell: cells are aligned floors. A
      reading 0.0009 away in both axes from (12.97791, 77.57021) already lies
      in the next cell, one 0.0011 away two cells on in latitude, while
      12.97701, 0.0009 below, shares its cell. */
  lemma QuantiseExamples()
    ensures Quantise(12.97791) == 12977 && Quantise(77.57021) == 77570
    ensures Quantise(12.97791 + 0.0009) == 12978 && Quantise(77.57021 + 0.0009) == 77571
    ensures Quantise(12.97791 + 0.0011) == 12979 && Quantise(77.57021 + 0.0011) == 77571
    ensures Quantise(12.97701) == Quantise(12.97791)
  {
    QuantiseUnique(12.97791, 12977);
    QuantiseUnique(77.57021, 77570);
    QuantiseUnique(12.97881, 12978);
    QuantiseUnique(77.57111, 77571);
    QuantiseUnique(12.97901, 12979);
    QuantiseUnique(77.57131, 77571);
    QuantiseUnique(12.97701, 12977);
  }

  /** The grid key `heatmap:<latGrid>:<lonGrid>` of a reading (consumer.ts:25-27):
      the 0.001-degree cell containing it in both axes. */
  function CellOf(e: BusLocation): (c: CellKey)
    ensures c.latGrid as real / 1000.0 <= e.latitude < (c.latGrid + 1) as real / 1000.0
    ensures c.lonGrid as real / 1000.0 <= e.longitude < (c.lonGrid + 1) as real / 1000.0
  {
    CellKey(Quantise(e.latitude), Quantise(e.longitude))
  }

  /** A key is visible up to and including its expiry time (Redis treats a key
      as expired only once the clock has passed that time); a key without one
      never expires. */
  predicate Live(c: Cell, now: int)
  {
    c.expiry.None? || now <= c.expiry.value
  }

  /** The value `GET heatmap:...` reads: 0 for an absent or expired key. */
  function HeatCount(heat: map<CellKey, Cell>, key: CellKey, now: int): int
  {
    if key in heat && Live(heat[key], now) then heat[key].count else 0
  }

  /** `redis.set('bus:<id>:location', ...)` (consumer.ts:18). */
  function SetLatest(s: Stores, e: BusLocation): (r: Stores)
    ensures r.latest.Keys == s.latest.Keys + {e.busId}
    ensures r.latest[e.busId] == e
    ensures forall id :: id in s.latest && id != e.busId ==> r.latest[id] == s.latest[id]
    ensures r.geo == s.geo && r.heat == s.heat && r.outbox == s.outbox
  {
    s.(latest := s.latest[e.busId := e])
  }

  /** `redis.geoadd('bus_positions', longitude, latitude, busId)` (consumer.ts:21). */
  function GeoAdd(s: Stores, e: BusLocation): (r: Stores)
    ensures r.geo.Keys == s.geo.Keys + {e.busId}
    ensures r.geo[e.busId] == GeoEntry(e.longitude, e.latitude)
    ensures forall id :: id in s.geo && id != e.busId ==> r.geo[id] == s.geo[id]
    ensures r.latest == s.latest && r.heat == s.heat && r.outbox == s.outbox
  {
    s.(geo := s.geo[e.busId := GeoEntry(e.longitude, e.latitude)])
  }

  /** `redis.incr(gridKey)` (consumer.ts:30): an absent or expired key starts
      from 0 and is created without a time-to-live; a live key keeps its own. */
  function Incr(s: Stores, key: CellKey, now: int): (r: Stores)
    ensures key in r.heat && Live(r.heat[key], now)
    ensures HeatCount(r.heat, key, now) == HeatCount(s.heat, key, now) + 1
    ensures !(key in s.heat && Live(s.heat[key], now)) ==> r.heat[key] == Cell(1, None)
    ensures key in s.heat && Live(s.heat[key], now) ==> r.heat[key].expiry == s.heat[key].expiry
    ensures r.heat.Keys == s.heat.Keys + {key}
    ensures forall c :: c in s.heat && c != key ==> r.heat[c] == s.heat[c]
    ensures r.latest == s.latest && r.geo == s.geo && r.outbox == s.outbox
  {
    var live := key in s.heat && Live(s.heat[key], now);
    var expiry := if live then s.heat[key].expiry else None;
    s.(heat := s.heat[key := Cell(HeatCount(s.heat, key, now) + 1, expiry)])
  }

  /** `redis.expire(gridKey, 300)` (consumer.ts:31): a live key's expiry moves
      to 300 s from now; an absent or expired key is left alone. */
  function Expire(s: Stores, key: CellKey, now: int): (r: Stores)
    ensures key in s.heat && Live(s.heat[key], now) ==>
      && r.heat == s.heat[key := Cell(s.heat[key].count, Some(now + CellTtlMs))]
    ensures !(key in s.heat && Live(s.heat[key], now)) ==> r == s
    ensures r.latest == s.latest && r.geo == s.geo && r.outbox == s.outbox
    ensures forall t :: t >= now ==>
      HeatCount(r.heat, key, t) == if t <= now + CellTtlMs then HeatCount(s.heat, key, now) else 0
  {
    if key in s.heat && Live(s.heat[key], now) then
      s.(heat := s.heat[key := s.heat[key].(expiry := Some(now + CellTtlMs))])
    else
      s
  }

  /** `pubApi.publish('bus-events', JSON.stringify(data))` (consumer.ts:34). */
  function Publish(s: Stores, e: BusLocation): (r: Stores)
    ensures r.outbox == s.outbox + [e]
    ensures r.latest == s.latest && r.geo == s.geo && r.heat == s.heat
  {
    s.(outbox := s.outbox + [e])
  }

  /** The awaited commands in the order the handler issues them. */
  datatype Command = SetCmd | GeoAddCmd | IncrCmd | ExpireCmd | PublishCmd

  function Rank(c: Command): nat
  {
    match c
    case SetCmd => 0
    case GeoAddCmd => 1
    case IncrCmd => 2
    case ExpireCmd => 3
    case PublishCmd => 4
  }

  /** Command c runs, and succeeds, when no earlier-or-equal command fails. */
  predicate Completes(fault: Option<Command>, c: Command)
  {
    fault.None? || Rank(c) < Rank(fault.value)
  }

  /** One Kafka message: its value (absent for a tombstone), the clock when the
      handler runs, and the first Redis command that fails, if any. */
  datatype Delivery = Delivery(value: Option<string>, now: int, fault: Option<Command>)

  datatype Outcome = NoValue | Malformed | Aborted(failed: Command) | Published

  datatype Handled = Handled(stores: Stores, outcome: Outcome)

  /** The payload of a delivery, if it has one and it parses. */
  function Event(d: Delivery, parse: string -> Option<BusLocation>): Option<BusLocation>
  {
    if d.value.None? then None else parse(d.value.value)
  }

  /** `eachMessage` (consumer.ts:10-40). `parse` stands for `JSON.parse`; its
      failure is caught like any other error. */
  function Handle(s: Stores, d: Delivery, parse: string -> Option<BusLocation>): (h: Handled)
    ensures d.value.None? ==> h == Handled(s, NoValue)
    ensures d.value.Some? && Event(d, parse).None? ==> h == Handled(s, Malformed)
    ensures Event(d, parse).Some? ==>
      var e := Event(d, parse).value;
      && h.outcome == (if d.fault.None? then Published else Aborted(d.fault.value))
      && h.stores.latest == (if Completes(d.fault, SetCmd) then s.latest[e.busId := e] else s.latest)
      && h.stores.geo == (if Completes(d.fault, GeoAddCmd) then s.geo[e.busId := GeoEntry(e.longitude, e.latitude)] else s.geo)
      && h.stores.outbox == (if Completes(d.fault, PublishCmd) then s.outbox + [e] else s.outbox)
      && (Completes(d.fault, IncrCmd) <==> HeatCount(h.stores.heat, CellOf(e), d.now) == HeatCount(s.heat, CellOf(e), d.now) + 1)
      && (!Completes(d.fault, IncrCmd) ==> h.stores.heat == s.heat)
      && (Completes(d.fault, ExpireCmd) ==>
            CellOf(e) in h.stores.heat && h.stores.heat[CellOf(e)].expiry == Some(d.now + CellTtlMs))
      && (Completes(d.fault, IncrCmd) && !Completes(d.fault, ExpireCmd) ==>
            CellOf(e) in h.stores.heat &&
            h.stores.heat[CellOf(e)].expiry ==
              (if CellOf(e) in s.heat && Live(s.heat[CellOf(e)], d.now) then s.heat[CellOf(e)].expiry else None))
    ensures forall c :: c in s.heat && (Event(d, parse).None? || c != CellOf(Event(d, parse).value)) ==>
      c in h.stores.heat && h.stores.heat[c] == s.heat[c]
    ensures h.stores.heat.Keys <= s.heat.Keys + (if Event(d, parse).Some? then {CellOf(Event(d, parse).value)} else {})
  {
    if d.value.None? then Handled(s, NoValue)
    else match parse(d.value.value)
      case None => Handled(s, Malformed)
      case Some(e) =>
        var key := CellOf(e);
        if !Completes(d.fault, SetCmd) then Handled(s, Aborted(SetCmd)) else
        var s1 := SetLatest(s, e);
        if !Completes(d.fault, GeoAddCmd) then Handled(s1, Aborted(GeoAddCmd)) else
        var s2 := GeoAdd(s1, e);
        if !Completes(d.fault, IncrCmd) then Handled(s2, Aborted(IncrCmd)) else
        var s3 := Incr(s2, key, d.now);
        if !Completes(d.fault, ExpireCmd) then Handled(s3, Aborted(ExpireCmd)) else
        var s4 := Expire(s3, key, d.now);
        if !Completes(d.fault, PublishCmd) then Handled(s4, Aborted(PublishCmd)) else
        Handled(Publish(s4, e), Published)
  }

  /** Delivering the same message twice (at-least-once redelivery, before the
      cell expires) leaves the two upserted stores as one delivery does, but
      counts the cell twice and publishes twice. */
  lemma RedeliveryDoubleCounts(s: Stores, d: Delivery, later: int, parse: string -> Option<BusLocation>)
    requires Event(d, parse).Some? && d.fault.None?
    requires later <= d.now + CellTtlMs
    ensures var e := Event(d, parse).value;
      var once := Handle(s, d, parse).stores;
      var twice := Handle(once, Delivery(d.value, later, None), parse).stores;
      && twice.latest == once.latest
      && twice.geo == once.geo
      && HeatCount(twice.heat, CellOf(e), later) == HeatCount(s.heat, CellOf(e), d.now) + 2
      && twice.outbox == s.outbox + [e, e]
  {
    var e := Event(d, parse).value;
    var once := Handle(s, d, parse).stores;
    assert HeatCount(once.heat, CellOf(e), d.now) == HeatCount(s.heat, CellOf(e), d.now) + 1;
    assert once.heat[CellOf(e)].expiry == Some(d.now + CellTtlMs);
    assert HeatCount(once.heat, CellOf(e), later) == HeatCount(once.heat, CellOf(e), d.now);
  }

  /** The stores after handling a sequence of deliveries in order. */
  function Run(s: Stores, ds: seq<Delivery>, parse: string -> Option<BusLocation>): Stores
    decreases |ds|
  {
    if ds == [] then s else Run(Handle(s, ds[0], parse).stores, ds[1..], parse)
  }

  /** The delivery reaches the INCR of cell `key`. */
  predicate Bumps(d: Delivery, parse: string -> Option<BusLocation>, key: CellKey)
  {
    Event(d, parse).Some? && CellOf(Event(d, parse).value) == key && Completes(d.fault, IncrCmd)
  }

  /** Deliveries that do not increment a cell leave it exactly as it was:
      present with the same count and expiry, or still absent. */
  lemma {:induction false} UnbumpedCellUnchanged(s: Stores, ds: seq<Delivery>, parse: string -> Option<BusLocation>, key: CellKey)
    requires forall i :: 0 <= i < |ds| ==> !Bumps(ds[i], parse, key)
    ensures key in s.heat ==> key in Run(s, ds, parse).heat && Run(s, ds, parse).heat[key] == s.heat[key]
    ensures key !in s.heat ==> key !in Run(s, ds, parse).heat
    decreases |ds|
  {
    if ds != [] {
      var h := Handle(s, ds[0], parse);
      assert !Bumps(ds[0], parse, key);
      if key in s.heat {
        assert key in h.stores.heat && h.stores.heat[key] == s.heat[key];
      } else {
        assert key !in h.stores.heat;
      }
      UnbumpedCellUnchanged(h.stores, ds[1..], parse, key);
    }
  }

  /** A cell incremented at time t0 and not incremented again reads zero once
      the clock is past t0 + 300 s, whatever else is delivered meanwhile. */
  lemma CellDecays(s: Stores, d: Delivery, ds: seq<Delivery>, parse: string -> Option<BusLocation>, t: int)
    requires Event(d, parse).Some? && d.fault.None?
    requires forall i :: 0 <= i < |ds| ==> !Bumps(ds[i], parse, CellOf(Event(d, parse).value))
    requires t > d.now + CellTtlMs
    ensures HeatCount(Run(Handle(s, d, parse).stores, ds, parse).heat, CellOf(Event(d, parse).value), t) == 0
  {
    var key := CellOf(Event(d, parse).value);
    UnbumpedCellUnchanged(Handle(s, d, parse).stores, ds, parse, key);
  }

  /** INCR and EXPIRE are separate commands: when EXPIRE fails after INCR
      created the key, the cell has no time-to-live and never decays. */
  lemma FailedExpireNeverDecays(s: Stores, d: Delivery, parse: string -> Option<BusLocation>)
    requires Event(d, parse).Some? && d.fault == Some(ExpireCmd)
    requires CellOf(Event(d, parse).value) in s.heat ==> !Live(s.heat[CellOf(Event(d, parse).value)], d.now)
    ensures forall t :: HeatCount(Handle(s, d, parse).stores.heat, CellOf(Event(d, parse).value), t) == 1
  {
  }

  /** What was published is what was stored, for the bus and its position. */
  lemma PublishedIsStored(s: Stores, d: Delivery, parse: string -> Option<BusLocation>)
    requires Handle(s, d, parse).outcome == Published
    ensures var h := Handle(s, d, parse).stores;
      var e := h.outbox[|h.outbox| - 1];
      && |h.outbox| == |s.outbox| + 1
      && e.busId in h.latest && h.latest[e.busId] == e
      && e.busId in h.geo && h.geo[e.busId] == GeoEntry(e.longitude, e.latitude)
  {
  }
}

=== FILE: real_arith.dfy ===
/** Facts about products and quotients of reals that the motion proofs use.
    Each is stated on its own so that the solver proves it in a small context. */
module RealArith {

  lemma MulNonneg(a: real, c: real)
    requires a >= 0.0 && c >= 0.0
    ensures a * c >= 0.0
  {
  }

  lemma MulPos(a: real, c: real)
    requires a > 0.0 && c > 0.0
    ensures a * c > 0.0
  {
  }

  lemma MulStrict(a: real, b: real, c: real)
    requires c > 0.0 && a < b
    ensures a * c < b * c
  {
    MulPos(b - a, c);
  }

  lemma DivMul(r: real, l: real)
    requires l != 0.0
    ensures r / l * l == r
  {
  }

  lemma DivBelow(r: real, l: real, q: real)
    requires l > 0.0 && r < l * q
    ensures r / l < q
  {
    if r / l >= q {
      if r / l > q {
        MulStrict(q, r / l, l);
      }
      DivMul(r, l);
    }
  }

  lemma DivAtLeastOne(d: real, m: real)
    requires 0.0 < m <= d
    ensures d / m >= 1.0
  {
  }

  lemma DivSub(x: real, d: real, m: real)
    requires m > 0.0
    ensures (x - d) / m == x / m - d / m
  {
  }

  lemma DivMonotone(y: real, x: real, m: real)
    requires m > 0.0 && y <= x
    ensures y / m <= x / m
  {
  }

  /** x lies on the closed interval between a and c, whichever is larger. */
  predicate Between(x: real, a: real, c: real)
  {
    (a <= x <= c) || (c <= x <= a)
  }

  /** Linear interpolation from a towards c by the fraction t. */
  function Lerp(a: real, c: real, t: real): (x: real)
    ensures x == (1.0 - t) * a + t * c
    ensures t == 0.0 ==> x == a
    ensures 0.0 <= t <= 1.0 ==> Between(x, a, c)
  {
    var x := a + (c - a) * t;
    LerpConvex(a, c, t, x);
    LerpBetween(a, c, t, x);
    x
  }

  /** The offset form a + (c - a)·t is the weighted mean (1 - t)·a + t·c. */
  lemma LerpConvex(a: real, c: real, t: real, x: real)
    requires x == a + (c - a) * t
    ensures x == (1.0 - t) * a + t * c
  {
    assert (c - a) * t == c * t - a * t;
    assert (1.0 - t) * a == a - t * a;
  }

  lemma LerpBetween(a: real, c: real, t: real, x: real)
    requires x == a + (c - a) * t
    ensures 0.0 <= t <= 1.0 ==> Between(x, a, c)
  {
    if 0.0 <= t <= 1.0 {
      if a <= c {
        MulNonneg(c - a, t);
        MulNonneg(c - a, 1.0 - t);
        assert (c - a) * (1.0 - t) == (c - a) - (c - a) * t;
      } else {
        MulNonneg(a - c, t);
        MulNonneg(a - c, 1.0 - t);
        assert (a - c) * t == -((c - a) * t);
        assert (a - c) * (1.0 - t) == (a - c) - (a - c) * t;
      }
    }
  }

  lemma ScaleBelowOne(u: real, m: real, x: real)
    requires 0.0 <= u < 1.0 && m > 0.0 && x == u * m
    ensures 0.0 <= x < m
  {
    MulNonneg(u, m);
    MulStrict(u, 1.0, m);
  }

  /** The part x of a segment of length l still ahead at progress p. */
  lemma Remainder(l: real, p: real, x: real)
    requires l > 0.0 && 0.0 <= p < 1.0 && x == l * (1.0 - p)
    ensures x > 0.0
    ensures x == l - p * l
    ensures p == 0.0 ==> x == l
  {
    MulPos(l, 1.0 - p);
    Distribute(l, p);
  }

  lemma Distribute(l: real, p: real)
    ensures l * (1.0 - p) == l - p * l
  {
  }

  /** n laps of length c, as repeated addition. */
  function Repeat(n: nat, c: real): real
  {
    if n == 0 then 0.0 else Repeat(n - 1, c) + c
  }

  lemma RepeatIsProduct(n: nat, c: real)
    ensures Repeat(n, c) == n as real * c
  {
    if n > 0 {
      RepeatIsProduct(n - 1, c);
      assert n as real * c == (n - 1) as real * c + c;
    }
  }

  /** x plus some whole number of laps of length c is y. */
  ghost predicate UpToLaps(x: real, y: real, c: real)
  {
    exists laps: nat {:trigger laps as real} :: x + laps as real * c == y
  }

  lemma LapWitness(x: real, y: real, n: nat, c: real)
    requires x + Repeat(n, c) == y
    ensures UpToLaps(x, y, c)
  {
    RepeatIsProduct(n, c);
  }
}

=== FILE: route_geometry.dfy ===
/** Polylines the buses drive along (backend/src/simulator/Simulator.ts:4-12,31).
    A vertex is a `[lon, lat]` pair. The haversine distance of the source
    (Simulator.ts:15-25) is trigonometric floating-point arithmetic; here it is
    an arbitrary metric `len`, about which only positivity is assumed. */
module RouteGeometry {

  /** One `[lon, lat]` vertex of a route. */
  datatype Point = Point(lon: real, lat: real)

  /** Stand-in for `getDistance`: the length of the segment from one vertex to
      the next, in kilometres. */
  type Metric = (Point, Point) -> real

  /** What the motion model silently relies on: at least two vertices (with one,
      the walk flips direction forever) and every segment positive in both
      directions of travel (with all vertices coincident, the walk never ends). */
  predicate Walkable(path: seq<Point>, len: Metric)
  {
    && |path| >= 2
    && forall i :: 0 <= i < |path| - 1 ==> Hop(path, len, i) > 0.0 && HopBack(path, len, i) > 0.0
  }

  /** Length of segment i driven forward, from vertex i to vertex i+1. */
  function Hop(path: seq<Point>, len: Metric, i: int): real
    requires 0 <= i < |path| - 1
  {
    len(path[i], path[i + 1])
  }

  /** Length of segment i driven in reverse, from vertex i+1 to vertex i. */
  function HopBack(path: seq<Point>, len: Metric, i: int): real
    requires 0 <= i < |path| - 1
  {
    len(path[i + 1], path[i])
  }

  /** Distance driven from vertex 0 forward to vertex i. */
  function Forward(path: seq<Point>, len: Metric, i: int): real
    requires 0 <= i < |path|
  {
    if i == 0 then 0.0 else Forward(path, len, i - 1) + Hop(path, len, i - 1)
  }

  /** Distance driven from the last vertex backward to vertex i. */
  function Backward(path: seq<Point>, len: Metric, i: int): real
    requires 0 <= i < |path|
    decreases |path| - i
  {
    if i == |path| - 1 then 0.0 else Backward(path, len, i + 1) + HopBack(path, len, i)
  }

  /** Length of one full out-and-back trip. */
  function Circuit(path: seq<Point>, len: Metric): real
    requires |path| >= 1
  {
    Forward(path, len, |path| - 1) + Backward(path, len, 0)
  }

  lemma {:induction false} ForwardMonotone(path: seq<Point>, len: Metric, i: int, j: int)
    requires Walkable(path, len)
    requires 0 <= i <= j < |path|
    ensures 0.0 <= Forward(path, len, i) <= Forward(path, len, j)
    decreases j
  {
    if j == 0 {
    } else if i == j {
      ForwardMonotone(path, len, 0, j - 1);
    } else {
      ForwardMonotone(path, len, i, j - 1);
    }
  }

  lemma {:induction false} BackwardMonotone(path: seq<Point>, len: Metric, i: int, j: int)
    requires Walkable(path, len)
    requires 0 <= i <= j < |path|
    ensures Backward(path, len, i) >= Backward(path, len, j) >= 0.0
    decreases |path| - i
  {
    if i == |path| - 1 {
    } else if i == j {
      BackwardMonotone(path, len, i + 1, |path| - 1);
    } else {
      BackwardMonotone(path, len, i + 1, j);
    }
  }

  function Min(a: real, b: real): real
  {
    if a <= b then a else b
  }

  /** The shortest segment from segment i on, in either direction: every
      boundary crossing of the walk that starts at a vertex consumes at least
      this much of the budget. */
  function ShortestSegment(path: seq<Point>, len: Metric, i: int): (m: real)
    requires 0 <= i < |path| - 1
    ensures forall j :: i <= j < |path| - 1 ==> m <= Hop(path, len, j) && m <= HopBack(path, len, j)
    ensures Walkable(path, len) ==> m > 0.0
    decreases |path| - i
  {
    var here := Min(Hop(path, len, i), HopBack(path, len, i));
    if i == |path| - 2 then here else Min(here, ShortestSegment(path, len, i + 1))
  }
}

=== FILE: shared_types.dfy ===
/** The location record that the simulator publishes, the stream processor
    stores and republishes, and the dashboard lists
    (backend/src/shared/types.ts:1-9; the dashboard declares the same shape).
    Numbers the source keeps as JavaScript doubles are exact reals here;
    `passengers` and the millisecond `timestamp` are integers. */
module SharedTypes {

  datatype BusLocation = BusLocation(
    busId: string,
    routeId: string,
    latitude: real,
    longitude: real,
    speed: real,
    passengers: int,
    timestamp: int)
}

=== FILE: text.dfy ===
/** String helpers with JavaScript's meaning: `toLowerCase` over ASCII,
    `includes`, and the decimal rendering of a single digit. */
module Text {

  /** ASCII lower-casing of one character. */
  function LowerChar(c: char): char
  {
    if 'A' <= c <= 'Z' then (c as int + 32) as char else c
  }

  /** `String.prototype.toLowerCase`, restricted to ASCII letters. */
  function Lower(s: string): (r: string)
    ensures |r| == |s|
    ensures forall i :: 0 <= i < |s| ==> r[i] == LowerChar(s[i])
  {
    if s == [] then [] else [LowerChar(s[0])] + Lower(s[1..])
  }

  lemma LowerIdempotent(s: string)
    ensures Lower(Lower(s)) == Lower(s)
  {
    assert forall i :: 0 <= i < |s| ==> LowerChar(LowerChar(s[i])) == LowerChar(s[i]);
  }

  /** `s.includes(t)`: t occurs in s at some position. */
  predicate Contains(s: string, t: string)
  {
    exists i :: 0 <= i <= |s| && t <= s[i..]
  }

  lemma ContainsEmpty(s: string)
    ensures Contains(s, "")
  {
    assert "" <= s[0..];
  }

  lemma ContainsSelf(s: string)
    ensures Contains(s, s)
  {
    assert s <= s[0..];
  }

  /** The decimal rendering of 0..9, as a template literal produces it. */
  function Digit(i: int): (r: string)
    requires 0 <= i < 10
    ensures |r| == 1 && '0' <= r[0] <= '9'
  {
    [('0' as int + i) as char]
  }

  lemma DigitInjective(i: int, j: int)
    requires 0 <= i < 10 && 0 <= j < 10
    ensures Digit(i) == Digit(j) <==> i == j
  {
    if Digit(i) == Digit(j) {
      assert Digit(i)[0] == Digit(j)[0];
    }
  }
}

=== FILE: wrappers.dfy ===
/** Optional values: a missing Kafka message value, a payload that does not
    parse, a Redis key without a time-to-live, a missing map entry. */
module Wrappers {

  datatype Option<+T> = None | Some(value: T)
}
